=== FILE: README.md ===
# Active friend sites: a Dafny model of the `/api/sites` aggregator

The friends-api service publishes a blogroll of "friend sites". Each site in
the list comes with its most recent articles. The handler `get_sites` in
`app.py` decides which sites count as active and which articles each one
shows, and it orders the sites by how recently they were active. This
project models that decision logic and proves what it guarantees.

The Dafny project has these modules:

- `Wrappers` (`wrappers.dfy`): `Option`, for missing rows and NULL columns.
- `Seqs` (`seqs.dfy`): SQL `LIMIT` (`Limit`), `Map`, `Distinct`, and permutation facts.
- `StableSort` (`stable_sort.dfy`): a stable descending insertion sort on an integer key. It is used both for Python's `list.sort(key=..., reverse=True)` and for SQL's `ORDER BY created_at DESC`. The module also proves sortedness, permutation and stability (`WithKey`).
- `Store` (`store.dfy`): the two tables `get_sites` reads, and the filters its article statements apply.
  - The directory rows are `Site`.
  - `friend_rss_articles` is a `seq<Row>` whose `createdAt` may be NULL.
  - `Newest` is the newest-article query.
  - `Ordered` is a site's dated rows in `ORDER BY created_at DESC` order.
  - `Since` and `Before` are the `WHERE` timestamp filters of the recent and backfill statements.
- `Aggregator` (`aggregator.dfy`): the handler's steps.
  - `RecentSet` and `Backfill` are the recent and backfill statements; `SelectArticles` joins them.
  - `Evaluate` is one loop iteration per site, and `Collect` is the directory pass.
  - `GetSites` is the final sort, with the temporary key removed.
- `Properties` (`properties.dfy`): what the result promises, for one site and for the whole list.
- `ClockSkew` (`clock_skew.dfy`): what goes wrong when the two article statements read different cutoffs.

Three cutoffs are involved, and the source reads them from two clocks:

- The dormancy test uses Python's `datetime.now() - timedelta(days=180)`. The model computes it from the `now` parameter: `WindowCutoff(now) = now - 180 * 86400`.
- The recent statement (app.py:55) and the backfill statement (app.py:66) each evaluate MySQL's `DATE_SUB(NOW(), INTERVAL 6 MONTH)` on their own. The model takes the two values as separate parameters, `recentCutoff` and `backfillCutoff`.

The two statement cutoffs differ when the database clock ticks to a new second between the statements. They also differ when the six-month subtraction is clamped to a month end. When they are equal, whatever their value, the recent set followed by the backfill is the site's three newest dated articles (`SelectIsNewest`). The whole result then does not depend on that value (`QueryCutoffIrrelevant`). When they differ, an article can be shown twice or skipped (`ClockSkew`, and "Findings" below). The `if articles:` guard can drop a site with a recent article only when, in addition, the recent cutoff is later than the window cutoff (`GuardNeedsSkew`). Six calendar months span at least 181 days, so that takes a database clock running more than a day ahead of the handler's. Every lemma about one site or the whole result takes both cutoffs. Its general clauses hold for any pair; the clauses that need equal cutoffs say so.

Timestamps are integers, counted in seconds of naive local time. The handler turns each date into a `YYYY-MM-DD` string. The model uses the day number `Day(t) = t / 86400` instead (floor division). For fixed-width dates, comparing the strings gives the same order as comparing the day numbers. So the sort on `latest_article_time` is modelled as a sort on the first article's day number.

## Model

| member | source | states |
|---|---|---|
| Store.SiteRows | app.py:38-43 | `WHERE friend_id = id`: a row is returned exactly when it is in the table and belongs to the site |
| Store.SiteRowsCount | app.py:38-43 | the `WHERE` filter returns each of the site's rows exactly as often as the table holds it, and no other row |
| Store.Dated | app.py:52-70 | the rows a timestamp comparison can select: exactly the input rows whose `created_at` is not NULL |
| Store.DatedCount | app.py:52-70 | the NULL filter keeps each dated row exactly as often as it occurs |
| Store.Ordered | app.py:52-58 | the site's rows in `ORDER BY created_at DESC` order: sorted newest first, and a permutation of the site's non-NULL rows |
| Store.OrderedCount | app.py:52-58 | the ordered rows hold each dated row of the site exactly as often as the table does |
| Store.Newest | app.py:38-45 | the newest-article query returns a row exactly when the site has some row in the table |
| Store.NewestCases | app.py:38-46 | the newest-article query returns no row exactly when the site has no row. It returns NULL exactly when every row of the site has a NULL `created_at`. Otherwise it returns the largest timestamp of the site |
| Store.Since | app.py:55 | `created_at >= cutoff`: every selected row is an input row at or after the cutoff |
| Store.SinceComplete | app.py:55 | every input row at or after the cutoff is selected, so the filter keeps exactly those rows |
| Store.Before | app.py:66 | `created_at < cutoff`: every selected row is an input row strictly before the cutoff |
| Store.BeforeComplete | app.py:66 | every input row strictly before the cutoff is selected, so the filter keeps exactly those rows |
| Store.SinceSorted | app.py:55-56 | filtering rows that are newest first by `created_at >= cutoff` keeps them newest first |
| Store.BeforeSorted | app.py:66-67 | filtering rows that are newest first by `created_at < cutoff` keeps them newest first |
| Store.SplitSorted | app.py:55-66 | for one cutoff, on rows ordered newest first: the rows at or after it followed by the rows before it are exactly the input. The two filters are disjoint and cover every row |
| Seqs.Limit | app.py:57 | SQL `LIMIT n`: a prefix of the input of length `min(n, length)` |
| Aggregator.Day | app.py:73-76 | the date keeps the day: `Day(t)` is the unique day number whose 86400-second span contains `t` |
| Aggregator.DayMonotone | app.py:76 | formatting keeps order: a later timestamp never gets an earlier date |
| Aggregator.Format | app.py:74-76 | an article keeps its title and link, and its `created_at` becomes the day whose span contains the timestamp |
| Aggregator.FormatAll | app.py:74-76 | every article is formatted in place, none added or dropped, and an article at least as new as another never gets an earlier date |
| Aggregator.RecentSet | app.py:52-59 | at most 3 rows, each a row of the site at or after the recent statement's cutoff |
| Aggregator.Backfill | app.py:62-70 | at most `n` rows, each a row of the site strictly before the backfill statement's cutoff |
| Aggregator.RecentSetNewest | app.py:52-59 | on rows ordered newest first, the recent statement returns the newest rows at or after its cutoff: fewer than 3 only when no further such row exists, and no row it leaves out is newer than one it returns |
| Aggregator.BackfillNewest | app.py:63-70 | on rows ordered newest first, the backfill statement returns the newest rows before its cutoff: fewer than `n` only when no further such row exists, and no row it leaves out is newer than one it returns |
| Aggregator.SelectArticles | app.py:59-71 | for any two cutoffs: at most 3 rows, all rows of the site. The recent set comes first, every later row is older than the backfill cutoff, and backfill appears only when the recent set had fewer than 3 |
| Aggregator.SelectMerged | app.py:52-71 | for any two cutoffs: the articles are the first 3 of the rows at or after the recent cutoff followed by the rows before the backfill cutoff |
| Aggregator.SelectIsNewest | app.py:52-71 | when both statements read the same cutoff, whatever its value: the articles are the 3 newest rows, or all rows when there are fewer |
| Aggregator.SelectNewestFirst | app.py:56-71 | when the backfill cutoff is not later than the recent cutoff, the articles are newest first across the recent/backfill boundary |
| Aggregator.Evaluate | app.py:36-80 | a kept site's entry is for that site, shows 1 to 3 articles, and carries the first article's date as its key. `Properties.ExclusionReasons` and `Properties.KeptEntry` say when it is kept and with which articles |
| Aggregator.Collect | app.py:35-80 | at most one entry per directory row, each for a directory site. `Properties.CollectSites` says which sites |
| Aggregator.GetSites | app.py:35-85 | never more sites than directory rows. `Properties.GetSitesMembership` says which ones |
| Properties.ArticlesIff | app.py:52-71 | the two statements select some row exactly when the site has a dated row at or after the recent cutoff or before the backfill cutoff |
| Properties.ExclusionReasons | app.py:44-80 | a site is skipped for no article exactly when it has no row, and for a NULL timestamp exactly when all its timestamps are NULL. It is skipped as dormant exactly when all its timestamps lie strictly before `now - 180 days`. The `if articles:` guard skips it exactly when it has a timestamp in the window but neither statement selects a row. It is kept exactly when it has a timestamp in the window and a selected row |
| Properties.DormancyTest | app.py:48-49 | for a site whose newest timestamp is `t`: it is skipped as dormant exactly when `now - t` exceeds 180 days of seconds, so a timestamp exactly 180 days old keeps it. Otherwise it is either kept or skipped by the `if articles:` guard |
| Properties.KeptEntry | app.py:74-80 | a kept site's entry is the site, its selected rows formatted (at least one), and the first one's date as key |
| Properties.GuardNeverFires | app.py:44-80 | when both statements read one cutoff, or the recent cutoff is no later than the window cutoff, the loop never returns `Excluded(NoArticles)`, and a site is kept exactly when some timestamp of it is inside the window |
| Properties.GuardNeedsSkew | app.py:55-77 | the `if articles:` guard skips a site only when the two statements read different cutoffs and the recent one is later than the window cutoff |
| Properties.ActiveShowsNewest | app.py:52-76 | for any two cutoffs, a kept site shows the first 3 of its recent rows followed by its backfill rows, formatted. With one cutoff, these are its 3 newest dated rows (all of them if fewer) |
| Properties.ActiveEntry | app.py:52-76 | for any two cutoffs, each shown article is a dated row of that site with the same title and link, and its `created_at` is the date of the row's timestamp |
| Properties.ActiveNewestFirst | app.py:56-71 | when the backfill cutoff is not later than the recent one, the shown list is newest first, both in timestamps and in formatted dates |
| Properties.ActiveCount | app.py:57-69 | for any two cutoffs, a kept site shows `min(recent rows + backfill rows, 3)` articles. With one cutoff, that is `min(dated rows, 3)`: exactly 3 for a site with at least 3 dated rows, every dated row otherwise |
| Properties.ActiveKey | app.py:79 | the temporary sort key is the date of the first selected row. With one cutoff, or a recent cutoff no later than the window cutoff, it is the date of the site's newest article |
| Properties.ActiveSites | app.py:35-80 | reference answer: the directory filtered by the keep condition, order kept. It holds exactly the directory sites that are kept, and no site more often than the directory has it |
| Properties.CollectMembers | app.py:35-80 | every entry built by the loop is the outcome of one of the directory's sites |
| Properties.CollectSites | app.py:35-80 | the loop's survivors are the reference `ActiveSites`, in directory order |
| Properties.KeyOnDay | app.py:77-80 | a site yields an entry keyed `d` exactly when it is kept and its first selected row is on day `d` |
| Properties.CollectOnDay | app.py:77-80 | the survivors whose key is day `d` are the kept sites whose first selected row is on day `d`, in directory order |
| Properties.OnDayOfStripped | app.py:84-85 | removing the key loses nothing the order depends on: the entries keyed `d` become exactly the returned sites whose first article is dated `d`, in the same order |
| StableSort.Insert | app.py:82 | insertion into a descending list keeps it descending and adds exactly the one element |
| StableSort.SortDesc | app.py:82 | the result is sorted by key, descending, and is a permutation of the input |
| StableSort.WithKey | app.py:82 | the elements with a given key, in their original order: exactly the elements with that key |
| StableSort.InsertStable | app.py:82 | the inserted element goes before every element with an equal key, and no element with an equal key moves |
| StableSort.SortDescStable | app.py:82 | stability: for every key, the elements with that key appear in the same relative order before and after sorting |
| Properties.GetSitesEntries | app.py:77-85 | each returned site is a directory site. It shows that site's own articles (1 to 3 of them) and carries nothing but the site fields and `articles`: the key is removed |
| Properties.GetSitesMembership | app.py:35-82 | a site is returned if and only if it is in the directory and kept. The returned sites are a permutation of the kept subsequence of the directory. With one cutoff, or a recent cutoff no later than the window cutoff, a site is returned if and only if it has a timestamp inside the window |
| Properties.DormantNeverReturned | app.py:44-49 | a site with no row, with only NULL timestamps, or with every timestamp strictly before `now - 180 days` never appears in the result, whatever the two cutoffs |
| Properties.GetSitesNoDuplicates | app.py:35-82 | when the directory has no repeated site, neither does the result |
| Properties.GetSitesOrdered | app.py:79-82 | every returned site has an article, and the sites come out with the dates of their first articles non-increasing |
| Properties.GetSitesTiesInDirectoryOrder | app.py:82 | sites whose first articles share a date come out in directory order |
| Properties.QueryCutoffIrrelevant | app.py:52-71 | when both statements read one cutoff, the result is the same for every value of it |
| Properties.CollectIgnoresCutoff | app.py:52-71 | when both statements read one cutoff, the loop's survivors are the same for every value of it |
| ClockSkew.BackfillRepeatsArticle | app.py:55-66 | with the backfill cutoff later than the recent cutoff, an older row between them is selected by both statements and is shown twice after a newer row |
| ClockSkew.BackfillSkipsArticle | app.py:55-66 | with the backfill cutoff before the recent cutoff, a row between them is selected by neither statement and is skipped, though an older row is shown |
| ClockSkew.BackfillOutOfOrder | app.py:55-66 | with the backfill cutoff after the newest row and the recent cutoff at or before the older one, the newest row is shown again after the older one |
| ClockSkew.GuardSkipsActiveSite | app.py:55-77 | a site whose only row is inside the window and lies between the backfill and the recent cutoff gets no articles, and the `if articles:` guard skips it (`Excluded(NoArticles)`) |

## Left out

- Flask routing, CORS and `.env` loading (app.py:1-12, app.py:21, app.py:92-93): web glue with no decision logic.
- The MySQL connection, cursor and statement execution (app.py:14-19, app.py:24-26, app.py:86-87). The tables are replaced by in-memory values: a `seq<Site>` directory and a `seq<Row>` article table.
- The directory query `WHERE is_active = 1` (app.py:28-33). `GetSites` receives the directory already filtered to active sites.
- The `jsonify` response and the catch-all `except` that maps any exception to a 500 error (app.py:88-90). An in-memory table cannot fail, so the model has no data-access error path.
- The clocks. `now` is one reading of the handler's clock, rounded up to a whole second. The handler reads `datetime.now()` once per site (app.py:48), with microseconds, so its window cutoff can move from one site to the next; the model uses one `now` for the whole directory.
- The database clock. `recentCutoff` and `backfillCutoff` are the values of the two statements' `DATE_SUB(NOW(), INTERVAL 6 MONTH)`. The source evaluates them again for every site; the model uses one pair for the whole directory.
- Calendar arithmetic. `timedelta(days=180)` is modelled as `180 * 86400` seconds subtracted from `now`. `INTERVAL 6 MONTH` is not computed: the statements' cutoffs enter as parameters. Time zones and daylight saving are not modelled.
- `strftime('%Y-%m-%d')` (app.py:76): the model keeps the day number, not the text of the date. The sort key order is the same, because fixed-width `YYYY-MM-DD` strings order like day numbers.
- SQL tie order. `ORDER BY created_at DESC` does not fix the order of rows with equal timestamps. The model picks table order, which is one order the database may return.
- Query ordering detail. The recent and backfill statements are modelled as filters of the site's single ordered row list. Sorting each filtered set separately would give the same rows, up to the tie order above.
- The `if article['created_at']` test (app.py:75). It always passes: the timestamp comparisons in both statements never select a NULL `created_at`. The model encodes this in the type `DatedRow`.
- Repeated calls with the same clocks and the same table give the same result. This holds trivially, because `GetSites` is a pure function, so there is no lemma for it.
- `scripts/notion_gallery_scraper.py`: a stand-alone scraper. It fetches a links page over HTTP, extracts each friend link (name, logo, description, URL, RSS URL, created time) and writes them to `links.json` and `links.csv` (scripts/notion_gallery_scraper.py:231-254, 283-285). It never connects to the database and takes no part in the aggregation.
- The handler's comments call both the dormancy window and the statements' window "half a year" (app.py:47 and app.py:51). The code reads them from two clocks with two different spans: 180 days on the handler's clock (app.py:48), six calendar months on the database clock (app.py:55 and app.py:66). The model follows the code.
- Properties.QueryCutoffIrrelevant: stated for runs where both statements read one cutoff. With different cutoffs the result depends on them (`ClockSkew`).
- Properties.CollectIgnoresCutoff: stated for runs where both statements read one cutoff, for the same reason.
- Properties.ActiveNewestFirst: stated only when the backfill cutoff is not later than the recent one. Otherwise a newer row can follow an older one (`ClockSkew.BackfillOutOfOrder`).

## Findings

| source | as written | input that shows it | evidently intended | confidence | as-written member | corrected member |
|---|---|---|---|---|---|---|
| app.py:55-66 | the recent and the backfill statement each evaluate `DATE_SUB(NOW(), INTERVAL 6 MONTH)` on their own, so their cutoffs can differ | a recent statement at `NOW()` 2024-02-29 23:59:59 gets cutoff 2023-08-29 23:59:59; a backfill statement one second later gets 2023-09-01 00:00:00. A site with rows dated 2023-12-01 and 2023-08-30 then shows `[2023-12-01, 2023-08-30, 2023-08-30]`. In integers: rows at 100 and 50 with cutoffs 50 (recent) and 51 (backfill) show `[a, b, b]`. Skipping: `NOW()` at 2024-08-30 23:59:59 gives cutoff 2024-02-29 23:59:59 for the recent statement, and one second later the backfill statement gets 2024-02-29 00:00:00, so a row dated 2024-02-29 12:00:00 is selected by neither. In integers: rows at 100, 60 and 10 with cutoffs 70 and 50 show `[a, c]`, skipping the row at 60 | both statements split the rows at one cutoff, so a site shows its three newest articles, none twice | high; not executed | Aggregator.SelectArticles, ClockSkew.BackfillRepeatsArticle, ClockSkew.BackfillSkipsArticle | Aggregator.SelectIsNewest, Properties.QueryCutoffIrrelevant |

=== FILE: aggregator.dfy ===
/**
 * The active-friend-sites aggregator of the `/api/sites` handler: per site,
 * in directory order, drop dormant sites, take the recent articles, backfill
 * with older ones up to three, format dates, then order the survivors by
 * their newest article's date, most recent first.
 */
module Aggregator {
  import opened Wrappers
  import opened Seqs
  import opened StableSort
  import opened Store

  const SecondsPerDay: int := 86400
  /** `timedelta(days=180)`: how far back the newest article may lie. */
  const WindowDays: int := 180
  /** `LIMIT 3` on the recent query and the `3 - len(articles)` backfill limit. */
  const Quota: nat := 3

  /** `datetime.now() - timedelta(days=180)`, on the handler's own clock. */
  function WindowCutoff(now: Timestamp): Timestamp {
    now - WindowDays * SecondsPerDay
  }

  /** The calendar day of a timestamp, as a day number: what `strftime('%Y-%m-%d')` keeps. */
  function Day(t: Timestamp): (d: int)
    ensures d * SecondsPerDay <= t < d * SecondsPerDay + SecondsPerDay
  {
    t / SecondsPerDay
  }

  lemma DayMonotone(t1: Timestamp, t2: Timestamp)
    requires t1 <= t2
    ensures Day(t1) <= Day(t2)
  {
  }

  /** An article as the handler returns it: `created_at` reduced to its date. */
  datatype ShownArticle = ShownArticle(title: string, link: string, createdAt: int)

  /** A surviving site with its articles and the temporary `latest_article_time` key. */
  datatype Entry = Entry(site: Site, articles: seq<ShownArticle>, latestArticleTime: int)

  /** A site as returned: its directory fields plus `articles`, the sort key removed. */
  datatype RankedSite = RankedSite(site: Site, articles: seq<ShownArticle>)

  /**
   * Why a site is skipped. `NoArticles` is the `if articles:` guard: it fires
   * only when the two article statements read different cutoffs and the
   * recent one is later than the window cutoff. Six calendar months span at
   * least 181 days, so that takes a database clock running more than a day
   * ahead of the handler's.
   */
  datatype Exclusion = NoArticle | NullTimestamp | Dormant | NoArticles

  datatype Outcome = Excluded(reason: Exclusion) | Active(entry: Entry)

  /** The row's title and link, with `created_at` replaced by the day that contains it. */
  function Format(r: DatedRow): (a: ShownArticle)
    ensures a.title == r.title && a.link == r.link
    ensures a.createdAt * SecondsPerDay <= Stamp(r) < a.createdAt * SecondsPerDay + SecondsPerDay
  {
    ShownArticle(r.title, r.link, Day(Stamp(r)))
  }

  /** Formats each row in place; a row at least as new as another never gets an earlier date. */
  function FormatAll(rows: seq<DatedRow>): (shown: seq<ShownArticle>)
    ensures |shown| == |rows|
    ensures forall i | 0 <= i < |rows| :: shown[i] == Format(rows[i])
    ensures forall i, j | 0 <= i < |rows| && 0 <= j < |rows| && Stamp(rows[i]) >= Stamp(rows[j]) ::
      shown[i].createdAt >= shown[j].createdAt
  {
    var shown := Map(Format, rows);
    forall i, j | 0 <= i < |rows| && 0 <= j < |rows| && Stamp(rows[i]) >= Stamp(rows[j])
      ensures shown[i].createdAt >= shown[j].createdAt
    {
      DayMonotone(Stamp(rows[j]), Stamp(rows[i]));
    }
    shown
  }

  /**
   * The recent statement: up to `Quota` rows at or after `cutoff`, newest
   * first. The cutoff is `DATE_SUB(NOW(), INTERVAL 6 MONTH)` as this
   * statement evaluates it.
   */
  function RecentSet(ordered: seq<DatedRow>, cutoff: Timestamp): (r: seq<DatedRow>)
    ensures |r| <= Quota
    ensures forall x | x in r :: x in ordered && Stamp(x) >= cutoff
  {
    Limit(Since(ordered, cutoff), Quota)
  }

  /**
   * The backfill statement: up to `n` rows before `cutoff`, newest first. It
   * evaluates `NOW()` again, so its cutoff need not equal the recent one.
   */
  function Backfill(ordered: seq<DatedRow>, cutoff: Timestamp, n: nat): (r: seq<DatedRow>)
    ensures |r| <= n
    ensures forall x | x in r :: x in ordered && Stamp(x) < cutoff
  {
    Limit(Before(ordered, cutoff), n)
  }

  /**
   * On rows ordered newest first, the recent statement returns the newest
   * rows at or after its cutoff: it comes back short only when no further
   * such row exists, and no row it leaves out is newer than one it returns.
   */
  lemma RecentSetNewest(ordered: seq<DatedRow>, cutoff: Timestamp)
    requires SortedDesc(ordered, Stamp)
    ensures |RecentSet(ordered, cutoff)| < Quota ==>
      forall x | x in ordered && Stamp(x) >= cutoff :: x in RecentSet(ordered, cutoff)
    ensures forall x, y | x in RecentSet(ordered, cutoff) && y in ordered && Stamp(y) >= cutoff && y !in RecentSet(ordered, cutoff) ::
      Stamp(x) >= Stamp(y)
  {
    SinceSorted(ordered, cutoff);
    SinceComplete(ordered, cutoff);
    LimitKeepsLargest(Since(ordered, cutoff), Quota, Stamp);
  }

  /**
   * On rows ordered newest first, the backfill statement returns the newest
   * rows before its cutoff: it comes back with fewer than `n` only when no
   * further such row exists, and no row it leaves out is newer than one it
   * returns.
   */
  lemma BackfillNewest(ordered: seq<DatedRow>, cutoff: Timestamp, n: nat)
    requires SortedDesc(ordered, Stamp)
    ensures |Backfill(ordered, cutoff, n)| < n ==>
      forall x | x in ordered && Stamp(x) < cutoff :: x in Backfill(ordered, cutoff, n)
    ensures forall x, y | x in Backfill(ordered, cutoff, n) && y in ordered && Stamp(y) < cutoff && y !in Backfill(ordered, cutoff, n) ::
      Stamp(x) >= Stamp(y)
  {
    BeforeSorted(ordered, cutoff);
    BeforeComplete(ordered, cutoff);
    LimitKeepsLargest(Before(ordered, cutoff), n, Stamp);
  }

  /**
   * The recent set, extended by backfill when it is short of `Quota`. The
   * recent rows come first, every later row is older than the backfill
   * cutoff, and backfill only appears when the recent set was short.
   */
  function SelectArticles(ordered: seq<DatedRow>, recentCutoff: Timestamp, backfillCutoff: Timestamp): (r: seq<DatedRow>)
    ensures |r| <= Quota
    ensures forall x | x in r :: x in ordered
    ensures |RecentSet(ordered, recentCutoff)| <= |r|
    ensures r[..|RecentSet(ordered, recentCutoff)|] == RecentSet(ordered, recentCutoff)
    ensures forall i | |RecentSet(ordered, recentCutoff)| <= i < |r| :: Stamp(r[i]) < backfillCutoff
    ensures |r| > |RecentSet(ordered, recentCutoff)| ==> |RecentSet(ordered, recentCutoff)| < Quota
  {
    var recent := RecentSet(ordered, recentCutoff);
    if |recent| < Quota then
      var older := Backfill(ordered, backfillCutoff, Quota - |recent|);
      assert forall i | |recent| <= i < |recent + older| :: (recent + older)[i] in older;
      recent + older
    else
      recent
  }

  /**
   * For any two cutoffs, the articles are the first `Quota` rows of what the
   * two statements would return without their limits, recent rows first.
   */
  lemma SelectMerged(ordered: seq<DatedRow>, recentCutoff: Timestamp, backfillCutoff: Timestamp)
    ensures SelectArticles(ordered, recentCutoff, backfillCutoff)
      == Limit(Since(ordered, recentCutoff) + Before(ordered, backfillCutoff), Quota)
  {
    var recent, older := Since(ordered, recentCutoff), Before(ordered, backfillCutoff);
    if |recent| < Quota {
      LimitAppendShort(recent, older, Quota);
    } else {
      LimitAppendLong(recent, older, Quota);
    }
  }

  /**
   * When both statements read the same cutoff, whatever its value, the recent
   * set plus backfill are exactly the `Quota` newest rows (or all rows when
   * there are fewer).
   */
  lemma SelectIsNewest(ordered: seq<DatedRow>, cutoff: Timestamp)
    requires SortedDesc(ordered, Stamp)
    ensures SelectArticles(ordered, cutoff, cutoff) == Limit(ordered, Quota)
  {
    SplitSorted(ordered, cutoff);
    SelectMerged(ordered, cutoff, cutoff);
  }

  /**
   * When the backfill cutoff is not later than the recent cutoff, the articles
   * are newest first: the rows the two statements return, minus those that
   * fall between the two cutoffs, are still in `ORDER BY created_at DESC`
   * order.
   */
  lemma SelectNewestFirst(ordered: seq<DatedRow>, recentCutoff: Timestamp, backfillCutoff: Timestamp)
    requires SortedDesc(ordered, Stamp)
    ensures backfillCutoff <= recentCutoff ==> SortedDesc(SelectArticles(ordered, recentCutoff, backfillCutoff), Stamp)
  {
    if backfillCutoff <= recentCutoff {
      var recent, older := Since(ordered, recentCutoff), Before(ordered, backfillCutoff);
      SinceSorted(ordered, recentCutoff);
      BeforeSorted(ordered, backfillCutoff);
      ConcatSorted(recent, older, Stamp);
      SelectMerged(ordered, recentCutoff, backfillCutoff);
      var r := SelectArticles(ordered, recentCutoff, backfillCutoff);
      forall i, j | 0 <= i < j < |r| ensures Stamp(r[i]) >= Stamp(r[j]) {
        assert r[i] == (recent + older)[i] && r[j] == (recent + older)[j];
      }
    }
  }

  /** One iteration of the handler's loop over the directory. */
  function Evaluate(table: Table, site: Site, now: Timestamp, recentCutoff: Timestamp, backfillCutoff: Timestamp): (o: Outcome)
    ensures o.Active? ==> o.entry.site == site
    ensures o.Active? ==> 1 <= |o.entry.articles| <= Quota
    ensures o.Active? ==> o.entry.latestArticleTime == o.entry.articles[0].createdAt
  {
    match Newest(table, site.id)
    case None => Excluded(NoArticle)
    case Some(None) => Excluded(NullTimestamp)
    case Some(Some(t)) =>
      if t < WindowCutoff(now) then
        Excluded(Dormant)
      else
        var articles := FormatAll(SelectArticles(Ordered(table, site.id), recentCutoff, backfillCutoff));
        if |articles| > 0 then
          Active(Entry(site, articles, articles[0].createdAt))
        else
          Excluded(NoArticles)
  }

  /** The surviving sites, in directory order: at most one entry per directory row, each for a directory site. */
  function Collect(table: Table, sites: seq<Site>, now: Timestamp, recentCutoff: Timestamp, backfillCutoff: Timestamp): (c: seq<Entry>)
    ensures |c| <= |sites|
    ensures forall e | e in c :: e.site in sites
  {
    if |sites| == 0 then
      []
    else
      var head := match Evaluate(table, sites[0], now, recentCutoff, backfillCutoff)
        case Active(e) => [e]
        case Excluded(_) => [];
      var rest := Collect(table, sites[1..], now, recentCutoff, backfillCutoff);
      assert forall s | s in sites[1..] :: s in sites;
      head + rest
  }

  function ActivityKey(e: Entry): int {
    e.latestArticleTime
  }

  function Strip(e: Entry): RankedSite {
    RankedSite(e.site, e.articles)
  }

  /**
   * The handler's result: survivors stable-sorted by activity key,
   * descending, key removed. The recent and backfill statements each take
   * their own cutoff.
   */
  function GetSites(table: Table, sites: seq<Site>, now: Timestamp, recentCutoff: Timestamp, backfillCutoff: Timestamp): (out: seq<RankedSite>)
    ensures |out| <= |sites|
  {
    var c := Collect(table, sites, now, recentCutoff, backfillCutoff);
    var sorted := SortDesc(c, ActivityKey);
    assert |sorted| == |c| by {
      assert |multiset(sorted)| == |multiset(c)|;
    }
    Map(Strip, sorted)
  }
}

=== FILE: clock_skew.dfy ===
/**
 * What happens when the recent and backfill statements read different
 * cutoffs. Each statement evaluates `DATE_SUB(NOW(), INTERVAL 6 MONTH)` on
 * its own, so the two cutoffs differ when the database clock ticks between
 * them, or when the six-month subtraction is clamped to a month end.
 */
module ClockSkew {
  import opened Seqs
  import opened StableSort
  import opened Store
  import opened Aggregator
  import opened Properties

  /**
   * A site with two rows. When the backfill statement's cutoff is later than
   * the recent statement's and the older row lies between them, both
   * statements select the older row, so it is shown twice. A one-second tick
   * with the older row exactly at the recent cutoff is one such run; the
   * February-to-March rollover, which moves the cutoff forward by days, is
   * another.
   */
  lemma BackfillRepeatsArticle(id: int, a: DatedRow, b: DatedRow, recentCutoff: Timestamp, backfillCutoff: Timestamp)
    requires a.friendId == id && b.friendId == id
    requires recentCutoff <= Stamp(b) < backfillCutoff <= Stamp(a)
    ensures Ordered([a, b], id) == [a, b]
    ensures SelectArticles([a, b], recentCutoff, backfillCutoff) == [a, b, b]
  {
    OrderedPair(id, a, b);
    PairSelect(a, b, recentCutoff, backfillCutoff);
  }

  /**
   * A site with three rows. When the backfill statement's cutoff is earlier
   * than the recent statement's and the middle row lies between them, neither
   * statement selects it: the site shows two articles although it has three
   * rows.
   */
  lemma BackfillSkipsArticle(id: int, a: DatedRow, b: DatedRow, c: DatedRow,
                             recentCutoff: Timestamp, backfillCutoff: Timestamp)
    requires a.friendId == id && b.friendId == id && c.friendId == id
    requires Stamp(a) >= recentCutoff > Stamp(b) >= backfillCutoff > Stamp(c)
    ensures Ordered([a, b, c], id) == [a, b, c]
    ensures SelectArticles([a, b, c], recentCutoff, backfillCutoff) == [a, c]
  {
    OrderedTriple(id, a, b, c);
    TripleSelect(a, b, c, recentCutoff, backfillCutoff);
  }

  /**
   * A site with two rows. When the backfill cutoff lies after the newer row
   * and the recent cutoff at or before the older one, the newer row is shown
   * again after the older one.
   */
  lemma BackfillOutOfOrder(id: int, a: DatedRow, b: DatedRow, recentCutoff: Timestamp, backfillCutoff: Timestamp)
    requires a.friendId == id && b.friendId == id
    requires recentCutoff <= Stamp(b) < Stamp(a) < backfillCutoff
    ensures Ordered([a, b], id) == [a, b]
    ensures SelectArticles([a, b], recentCutoff, backfillCutoff) == [a, b, a]
  {
    OrderedPair(id, a, b);
    PairSelect(a, b, recentCutoff, backfillCutoff);
  }

  /**
   * A site with one row, inside the activity window. With the recent cutoff
   * after the row and the backfill cutoff at or before it, neither statement
   * selects the row, and the `if articles:` guard skips the site. By
   * `Properties.GuardNeedsSkew` this needs a recent cutoff later than the
   * window cutoff: a database clock more than a day ahead of the handler's.
   */
  lemma GuardSkipsActiveSite(site: Site, a: DatedRow, now: Timestamp, recentCutoff: Timestamp, backfillCutoff: Timestamp)
    requires a.friendId == site.id
    requires backfillCutoff <= Stamp(a) < recentCutoff
    requires Stamp(a) >= WindowCutoff(now)
    ensures Ordered([a], site.id) == [a]
    ensures SelectArticles([a], recentCutoff, backfillCutoff) == []
    ensures Evaluate([a], site, now, recentCutoff, backfillCutoff) == Excluded(NoArticles)
  {
    var id := site.id;
    ExclusionReasons([a], site, now, recentCutoff, backfillCutoff);
    assert SiteRows([a], id) == [a];
    assert Dated([a]) == [a];
    var o: seq<DatedRow> := [a];
    assert o[1..] == [];
    assert Since(o, recentCutoff) == [];
    assert Before(o, backfillCutoff) == [];
  }

  /**
   * Both statements over two rows, both at or after the recent cutoff: both
   * rows, then the newest row, if any, before the backfill cutoff.
   */
  lemma PairSelect(a: DatedRow, b: DatedRow, recentCutoff: Timestamp, backfillCutoff: Timestamp)
    requires Stamp(a) > Stamp(b) >= recentCutoff
    ensures SelectArticles([a, b], recentCutoff, backfillCutoff)
      == [a, b] + (if Stamp(a) < backfillCutoff then [a] else if Stamp(b) < backfillCutoff then [b] else [])
  {
    var o: seq<DatedRow> := [a, b];
    assert o[1..] == [b];
    assert Since(o, recentCutoff) == [a, b] by {
      assert Since([b], recentCutoff) == [b];
    }
    PairBefore(a, b, backfillCutoff);
  }

  lemma PairBefore(a: DatedRow, b: DatedRow, cutoff: Timestamp)
    ensures Before([a, b], cutoff) == (if Stamp(a) < cutoff then [a] else []) + (if Stamp(b) < cutoff then [b] else [])
  {
    assert [a, b][1..] == [b];
    assert Before([b], cutoff) == (if Stamp(b) < cutoff then [b] else []) by {
      assert [b][1..] == [];
    }
  }

  lemma TripleSelect(a: DatedRow, b: DatedRow, c: DatedRow, recentCutoff: Timestamp, backfillCutoff: Timestamp)
    requires Stamp(a) >= recentCutoff > Stamp(b) >= backfillCutoff > Stamp(c)
    ensures SelectArticles([a, b, c], recentCutoff, backfillCutoff) == [a, c]
  {
    TripleSince(a, b, c, recentCutoff);
    TripleBefore(a, b, c, backfillCutoff);
  }

  lemma TripleSince(a: DatedRow, b: DatedRow, c: DatedRow, cutoff: Timestamp)
    requires Stamp(a) >= cutoff > Stamp(b) > Stamp(c)
    ensures Since([a, b, c], cutoff) == [a]
  {
    assert [a, b, c][1..] == [b, c] && [b, c][1..] == [c] && [c][1..] == [];
    assert Since([c], cutoff) == [];
    assert Since([b, c], cutoff) == [];
  }

  lemma TripleBefore(a: DatedRow, b: DatedRow, c: DatedRow, cutoff: Timestamp)
    requires Stamp(a) > Stamp(b) >= cutoff > Stamp(c)
    ensures Before([a, b, c], cutoff) == [c]
  {
    assert [a, b, c][1..] == [b, c] && [b, c][1..] == [c] && [c][1..] == [];
    assert Before([c], cutoff) == [c];
    assert Before([b, c], cutoff) == [c];
  }

  /** Two rows of one site, the first newer: the site's ordered rows are the table. */
  lemma OrderedPair(id: int, a: DatedRow, b: DatedRow)
    requires a.friendId == id && b.friendId == id && Stamp(a) > Stamp(b)
    ensures Ordered([a, b], id) == [a, b]
  {
    var t := [a, b];
    assert t[1..] == [b];
    assert SiteRows(t, id) == t by {
      assert SiteRows([b], id) == [b];
    }
    assert Dated(t) == t by {
      assert Dated([b]) == [b];
    }
    assert SortDesc(t, Stamp) == t by {
      assert SortDesc([b], Stamp) == [b];
      assert Insert(a, [b], Stamp) == t;
    }
  }

  /** Three rows of one site, newest first: the site's ordered rows are the table. */
  lemma OrderedTriple(id: int, a: DatedRow, b: DatedRow, c: DatedRow)
    requires a.friendId == id && b.friendId == id && c.friendId == id
    requires Stamp(a) > Stamp(b) > Stamp(c)
    ensures Ordered([a, b, c], id) == [a, b, c]
  {
    TripleRows(id, a, b, c);
    TripleDated(a, b, c);
    TripleSorted(a, b, c);
  }

  lemma TripleRows(id: int, a: Row, b: Row, c: Row)
    requires a.friendId == id && b.friendId == id && c.friendId == id
    ensures SiteRows([a, b, c], id) == [a, b, c]
  {
    assert [a, b, c][1..] == [b, c] && [b, c][1..] == [c];
    assert SiteRows([c], id) == [c];
    assert SiteRows([b, c], id) == [b, c];
  }

  lemma TripleDated(a: DatedRow, b: DatedRow, c: DatedRow)
    ensures Dated([a, b, c]) == [a, b, c]
  {
    assert [a, b, c][1..] == [b, c] && [b, c][1..] == [c];
    assert Dated([c]) == [c];
    assert Dated([b, c]) == [b, c];
  }

  lemma TripleSorted(a: DatedRow, b: DatedRow, c: DatedRow)
    requires Stamp(a) > Stamp(b) > Stamp(c)
    ensures SortDesc([a, b, c], Stamp) == [a, b, c]
  {
    assert [a, b, c][1..] == [b, c];
    PairSorted(b, c);
    InsertFront(a, [b, c], Stamp);
    assert [a] + [b, c] == [a, b, c];
  }

  lemma PairSorted(b: DatedRow, c: DatedRow)
    requires Stamp(b) > Stamp(c)
    ensures SortDesc([b, c], Stamp) == [b, c]
  {
    assert [b, c][1..] == [c];
    assert SortDesc([c], Stamp) == [c];
    InsertFront(b, [c], Stamp);
    assert [b] + [c] == [b, c];
  }
}

=== FILE: properties.dfy ===
/**
 * What `GetSites` promises: which sites survive, which articles each shows,
 * and in what order the sites come out.
 */
module Properties {
  import opened Wrappers
  import opened Seqs
  import opened StableSort
  import opened Store
  import opened Aggregator

  /** Some row of the site carries a non-NULL `created_at` at or after `cutoff`. */
  predicate HasRowSince(table: Table, id: int, cutoff: Timestamp) {
    exists r | r in table :: r.friendId == id && r.createdAt.Some? && r.createdAt.value >= cutoff
  }

  /** Some dated row of the site is selected by the recent statement or by the backfill statement. */
  predicate HasQueryRow(table: Table, id: int, recentCutoff: Timestamp, backfillCutoff: Timestamp) {
    exists r | r in table ::
      r.friendId == id && r.createdAt.Some? && (r.createdAt.value >= recentCutoff || r.createdAt.value < backfillCutoff)
  }

  /**
   * Reference condition for a site to be returned: a timestamp inside the
   * activity window, and at least one row that one of the two article
   * statements selects.
   */
  predicate Kept(table: Table, id: int, now: Timestamp, recentCutoff: Timestamp, backfillCutoff: Timestamp) {
    HasRowSince(table, id, WindowCutoff(now)) && HasQueryRow(table, id, recentCutoff, backfillCutoff)
  }

  /** The day of the site's newest non-NULL `created_at`, if any. */
  function NewestDay(table: Table, id: int): Option<int> {
    match Newest(table, id)
    case Some(Some(t)) => Some(Day(t))
    case _ => None
  }

  /**
   * The day of the first row the two statements select: the newest row at or
   * after the recent cutoff, or, when there is none, the newest row before
   * the backfill cutoff.
   */
  function LeadDay(table: Table, id: int, recentCutoff: Timestamp, backfillCutoff: Timestamp): Option<int> {
    var o := Ordered(table, id);
    var selected := Since(o, recentCutoff) + Before(o, backfillCutoff);
    if |selected| > 0 then Some(Day(Stamp(selected[0]))) else None
  }

  /** Reference answer for the survivors: the directory filtered by `Kept`, order kept. */
  function ActiveSites(table: Table, sites: seq<Site>, now: Timestamp, recentCutoff: Timestamp, backfillCutoff: Timestamp): (r: seq<Site>)
    ensures forall s :: s in r <==> s in sites && Kept(table, s.id, now, recentCutoff, backfillCutoff)
    ensures multiset(r) <= multiset(sites)
  {
    if |sites| == 0 then
      []
    else
      var rest := ActiveSites(table, sites[1..], now, recentCutoff, backfillCutoff);
      assert sites == [sites[0]] + sites[1..];
      (if Kept(table, sites[0].id, now, recentCutoff, backfillCutoff) then [sites[0]] else []) + rest
  }

  /** The survivors whose first shown article falls on day `d`, in directory order. */
  function ActiveSitesOnDay(table: Table, sites: seq<Site>, now: Timestamp, recentCutoff: Timestamp, backfillCutoff: Timestamp, d: int): seq<Site> {
    if |sites| == 0 then
      []
    else
      var keep := Kept(table, sites[0].id, now, recentCutoff, backfillCutoff)
        && LeadDay(table, sites[0].id, recentCutoff, backfillCutoff) == Some(d);
      (if keep then [sites[0]] else []) + ActiveSitesOnDay(table, sites[1..], now, recentCutoff, backfillCutoff, d)
  }

  function SiteOf(r: RankedSite): Site {
    r.site
  }

  function EntrySite(e: Entry): Site {
    e.site
  }

  function OutSites(out: seq<RankedSite>): seq<Site> {
    Map(SiteOf, out)
  }

  /** The returned sites whose first article is dated `d`, in output order. */
  function OnDay(out: seq<RankedSite>, d: int): seq<RankedSite> {
    if |out| == 0 then
      []
    else
      var keep := |out[0].articles| > 0 && out[0].articles[0].createdAt == d;
      (if keep then [out[0]] else []) + OnDay(out[1..], d)
  }

  // ---------------------------------------------------------------------------
  // One site

  /** The two statements select something exactly when some dated row of the site is at or after the recent cutoff or before the backfill cutoff. */
  lemma ArticlesIff(table: Table, id: int, recentCutoff: Timestamp, backfillCutoff: Timestamp)
    ensures |SelectArticles(Ordered(table, id), recentCutoff, backfillCutoff)| > 0
      <==> HasQueryRow(table, id, recentCutoff, backfillCutoff)
  {
    var o := Ordered(table, id);
    var recent, older := Since(o, recentCutoff), Before(o, backfillCutoff);
    SelectMerged(o, recentCutoff, backfillCutoff);
    if |recent + older| > 0 {
      var x := (recent + older)[0];
      assert x in recent || x in older;
      assert x in table && x.friendId == id;
    }
    if HasQueryRow(table, id, recentCutoff, backfillCutoff) {
      var r :| r in table && r.friendId == id && r.createdAt.Some?
        && (r.createdAt.value >= recentCutoff || r.createdAt.value < backfillCutoff);
      assert r in o;
      SinceComplete(o, recentCutoff);
      BeforeComplete(o, backfillCutoff);
      assert r in recent + older;
    }
  }

  /**
   * Why a site is skipped, in terms of the article table: no row, only NULL
   * timestamps, every timestamp strictly before `now - 180 days`, or no row
   * that either article statement selects. It is kept exactly when some
   * timestamp is at or after the window cutoff (a timestamp equal to it keeps
   * the site) and some row is selected.
   */
  lemma ExclusionReasons(table: Table, site: Site, now: Timestamp, recentCutoff: Timestamp, backfillCutoff: Timestamp)
    ensures Evaluate(table, site, now, recentCutoff, backfillCutoff) == Excluded(NoArticle) <==>
      forall r | r in table :: r.friendId != site.id
    ensures Evaluate(table, site, now, recentCutoff, backfillCutoff) == Excluded(NullTimestamp) <==>
      && (exists r | r in table :: r.friendId == site.id)
      && (forall r | r in table && r.friendId == site.id :: r.createdAt.None?)
    ensures Evaluate(table, site, now, recentCutoff, backfillCutoff) == Excluded(Dormant) <==>
      && (exists r | r in table :: r.friendId == site.id && r.createdAt.Some?)
      && (forall r | r in table && r.friendId == site.id && r.createdAt.Some? :: r.createdAt.value < WindowCutoff(now))
    ensures Evaluate(table, site, now, recentCutoff, backfillCutoff) == Excluded(NoArticles) <==>
      HasRowSince(table, site.id, WindowCutoff(now)) && !HasQueryRow(table, site.id, recentCutoff, backfillCutoff)
    ensures Evaluate(table, site, now, recentCutoff, backfillCutoff).Active? <==>
      Kept(table, site.id, now, recentCutoff, backfillCutoff)
  {
    ExclusionNoRow(table, site, now, recentCutoff, backfillCutoff);
    ExclusionDormant(table, site, now, recentCutoff, backfillCutoff);
    ExclusionGuard(table, site, now, recentCutoff, backfillCutoff);
  }

  lemma ExclusionNoRow(table: Table, site: Site, now: Timestamp, recentCutoff: Timestamp, backfillCutoff: Timestamp)
    ensures Evaluate(table, site, now, recentCutoff, backfillCutoff) == Excluded(NoArticle) <==>
      forall r | r in table :: r.friendId != site.id
    ensures Evaluate(table, site, now, recentCutoff, backfillCutoff) == Excluded(NullTimestamp) <==>
      && (exists r | r in table :: r.friendId == site.id)
      && (forall r | r in table && r.friendId == site.id :: r.createdAt.None?)
  {
    NewestCases(table, site.id);
  }

  lemma ExclusionDormant(table: Table, site: Site, now: Timestamp, recentCutoff: Timestamp, backfillCutoff: Timestamp)
    ensures Evaluate(table, site, now, recentCutoff, backfillCutoff) == Excluded(Dormant) <==>
      && (exists r | r in table :: r.friendId == site.id && r.createdAt.Some?)
      && (forall r | r in table && r.friendId == site.id && r.createdAt.Some? :: r.createdAt.value < WindowCutoff(now))
  {
    NewestCases(table, site.id);
    match Newest(table, site.id)
    case None =>
    case Some(None) =>
    case Some(Some(t)) =>
      assert IsNewestStamp(table, site.id, t);
  }

  lemma ExclusionGuard(table: Table, site: Site, now: Timestamp, recentCutoff: Timestamp, backfillCutoff: Timestamp)
    ensures Evaluate(table, site, now, recentCutoff, backfillCutoff) == Excluded(NoArticles) <==>
      HasRowSince(table, site.id, WindowCutoff(now)) && !HasQueryRow(table, site.id, recentCutoff, backfillCutoff)
    ensures Evaluate(table, site, now, recentCutoff, backfillCutoff).Active? <==>
      Kept(table, site.id, now, recentCutoff, backfillCutoff)
  {
    NewestInWindow(table, site.id, WindowCutoff(now));
    ArticlesIff(table, site.id, recentCutoff, backfillCutoff);
  }

  /** Some timestamp of the site is at or after `cutoff` exactly when its newest one is. */
  lemma NewestInWindow(table: Table, id: int, cutoff: Timestamp)
    ensures HasRowSince(table, id, cutoff) <==>
      Newest(table, id).Some? && Newest(table, id).value.Some? && Newest(table, id).value.value >= cutoff
  {
    NewestCases(table, id);
    match Newest(table, id)
    case None =>
    case Some(None) =>
    case Some(Some(t)) =>
      assert IsNewestStamp(table, id, t);
  }

  /**
   * The dormancy test on the site's newest timestamp `t`: the site is skipped
   * as dormant exactly when `t` lies more than 180 days of seconds before
   * `now`, so a timestamp exactly 180 days old keeps it.
   */
  lemma DormancyTest(table: Table, site: Site, now: Timestamp, recentCutoff: Timestamp, backfillCutoff: Timestamp, t: Timestamp)
    requires Newest(table, site.id) == Some(Some(t))
    ensures Evaluate(table, site, now, recentCutoff, backfillCutoff) == Excluded(Dormant) <==> now - t > 180 * 86400
    ensures now - t <= 180 * 86400 ==>
      Evaluate(table, site, now, recentCutoff, backfillCutoff).Active?
        || Evaluate(table, site, now, recentCutoff, backfillCutoff) == Excluded(NoArticles)
  {
  }

  /**
   * A kept site's outcome: its entry carries the formatted rows the two
   * statements select, keyed by the first one's date.
   */
  lemma KeptEntry(table: Table, site: Site, now: Timestamp, recentCutoff: Timestamp, backfillCutoff: Timestamp)
    requires Kept(table, site.id, now, recentCutoff, backfillCutoff)
    ensures var a := FormatAll(SelectArticles(Ordered(table, site.id), recentCutoff, backfillCutoff));
      && |a| > 0
      && Evaluate(table, site, now, recentCutoff, backfillCutoff) == Active(Entry(site, a, a[0].createdAt))
  {
    ExclusionReasons(table, site, now, recentCutoff, backfillCutoff);
  }

  /**
   * The `if articles:` guard never skips a site when both statements read one
   * cutoff, or when the recent cutoff is no later than the window cutoff: the
   * site is kept exactly when some timestamp of it is inside the window.
   */
  lemma GuardNeverFires(table: Table, site: Site, now: Timestamp, recentCutoff: Timestamp, backfillCutoff: Timestamp)
    ensures recentCutoff == backfillCutoff || recentCutoff <= WindowCutoff(now) ==>
      Evaluate(table, site, now, recentCutoff, backfillCutoff) != Excluded(NoArticles)
    ensures recentCutoff == backfillCutoff || recentCutoff <= WindowCutoff(now) ==>
      (Evaluate(table, site, now, recentCutoff, backfillCutoff).Active? <==> HasRowSince(table, site.id, WindowCutoff(now)))
  {
    ExclusionReasons(table, site, now, recentCutoff, backfillCutoff);
    KeptIffWindow(table, site.id, now, recentCutoff, backfillCutoff);
  }

  /** Without clock skew, the keep condition is the window test alone. */
  lemma KeptIffWindow(table: Table, id: int, now: Timestamp, recentCutoff: Timestamp, backfillCutoff: Timestamp)
    ensures recentCutoff == backfillCutoff || recentCutoff <= WindowCutoff(now) ==>
      (Kept(table, id, now, recentCutoff, backfillCutoff) <==> HasRowSince(table, id, WindowCutoff(now)))
  {
  }

  /**
   * The `if articles:` guard skips a site only when the two statements read
   * different cutoffs and the recent one is later than the window cutoff.
   */
  lemma GuardNeedsSkew(table: Table, site: Site, now: Timestamp, recentCutoff: Timestamp, backfillCutoff: Timestamp)
    ensures Evaluate(table, site, now, recentCutoff, backfillCutoff) == Excluded(NoArticles) ==>
      recentCutoff != backfillCutoff && recentCutoff > WindowCutoff(now)
  {
    ExclusionReasons(table, site, now, recentCutoff, backfillCutoff);
    KeptIffWindow(table, site.id, now, recentCutoff, backfillCutoff);
  }

  /**
   * A kept site's articles are the first `Quota` rows of what the two
   * statements select, recent rows first. When both read one cutoff, these
   * are its `Quota` newest dated rows, formatted.
   */
  lemma ActiveShowsNewest(table: Table, site: Site, now: Timestamp, recentCutoff: Timestamp, backfillCutoff: Timestamp)
    requires Kept(table, site.id, now, recentCutoff, backfillCutoff)
    ensures Evaluate(table, site, now, recentCutoff, backfillCutoff).Active?
    ensures var o := Ordered(table, site.id);
      Evaluate(table, site, now, recentCutoff, backfillCutoff).entry.articles
        == FormatAll(Limit(Since(o, recentCutoff) + Before(o, backfillCutoff), Quota))
    ensures recentCutoff == backfillCutoff ==>
      Evaluate(table, site, now, recentCutoff, backfillCutoff).entry.articles
        == FormatAll(Limit(Ordered(table, site.id), Quota))
  {
    KeptEntry(table, site, now, recentCutoff, backfillCutoff);
    var o := Ordered(table, site.id);
    SelectMerged(o, recentCutoff, backfillCutoff);
    if recentCutoff == backfillCutoff {
      SelectIsNewest(o, recentCutoff);
    }
  }

  /** Each article a kept site shows is one of that site's dated rows, with its title, its link and the date of its timestamp. */
  lemma ActiveEntry(table: Table, site: Site, now: Timestamp, recentCutoff: Timestamp, backfillCutoff: Timestamp)
    requires Kept(table, site.id, now, recentCutoff, backfillCutoff)
    ensures Evaluate(table, site, now, recentCutoff, backfillCutoff).Active?
    ensures var e := Evaluate(table, site, now, recentCutoff, backfillCutoff).entry;
      forall i | 0 <= i < |e.articles| ::
        exists r | r in table :: r.friendId == site.id && r.createdAt.Some? && e.articles[i] == Format(r)
  {
    KeptEntry(table, site, now, recentCutoff, backfillCutoff);
    var o := Ordered(table, site.id);
    var picked := SelectArticles(o, recentCutoff, backfillCutoff);
    var e := Evaluate(table, site, now, recentCutoff, backfillCutoff).entry;
    assert e.articles == FormatAll(picked);
    forall i | 0 <= i < |e.articles|
      ensures exists r | r in table :: r.friendId == site.id && r.createdAt.Some? && e.articles[i] == Format(r)
    {
      PickedFromSite(table, site.id, picked, i);
    }
  }

  lemma PickedFromSite(table: Table, id: int, picked: seq<DatedRow>, i: nat)
    requires forall x | x in picked :: x in table && x.friendId == id
    requires i < |picked|
    ensures exists r | r in table :: r.friendId == id && r.createdAt.Some? && FormatAll(picked)[i] == Format(r)
  {
    assert picked[i] in picked;
  }

  /**
   * When the backfill cutoff is not later than the recent cutoff (in
   * particular when both statements read one cutoff), a kept site's articles
   * are newest first: timestamps, and so dates, never increase down the list.
   */
  lemma ActiveNewestFirst(table: Table, site: Site, now: Timestamp, recentCutoff: Timestamp, backfillCutoff: Timestamp)
    requires Kept(table, site.id, now, recentCutoff, backfillCutoff)
    ensures Evaluate(table, site, now, recentCutoff, backfillCutoff).Active?
    ensures backfillCutoff <= recentCutoff ==>
      SortedDesc(SelectArticles(Ordered(table, site.id), recentCutoff, backfillCutoff), Stamp)
    ensures backfillCutoff <= recentCutoff ==>
      var e := Evaluate(table, site, now, recentCutoff, backfillCutoff).entry;
      forall i, j | 0 <= i < j < |e.articles| :: e.articles[i].createdAt >= e.articles[j].createdAt
  {
    KeptEntry(table, site, now, recentCutoff, backfillCutoff);
    SelectNewestFirst(Ordered(table, site.id), recentCutoff, backfillCutoff);
  }

  /**
   * A kept site shows as many articles as the two statements select, capped
   * at `Quota`. When both read one cutoff, that is `Quota` when the site has
   * at least that many dated rows and every dated row otherwise.
   */
  lemma ActiveCount(table: Table, site: Site, now: Timestamp, recentCutoff: Timestamp, backfillCutoff: Timestamp)
    requires Kept(table, site.id, now, recentCutoff, backfillCutoff)
    ensures Evaluate(table, site, now, recentCutoff, backfillCutoff).Active?
    ensures var o := Ordered(table, site.id);
      |Evaluate(table, site, now, recentCutoff, backfillCutoff).entry.articles|
        == Min(|Since(o, recentCutoff)| + |Before(o, backfillCutoff)|, Quota)
    ensures recentCutoff == backfillCutoff ==>
      |Evaluate(table, site, now, recentCutoff, backfillCutoff).entry.articles|
        == Min(|Dated(SiteRows(table, site.id))|, Quota)
  {
    KeptEntry(table, site, now, recentCutoff, backfillCutoff);
    var o := Ordered(table, site.id);
    SelectMerged(o, recentCutoff, backfillCutoff);
    if recentCutoff == backfillCutoff {
      SelectIsNewest(o, recentCutoff);
      OrderedLength(table, site.id);
    }
  }

  /** The ordered rows are as many as the site's dated rows. */
  lemma OrderedLength(table: Table, id: int)
    ensures |Ordered(table, id)| == |Dated(SiteRows(table, id))|
  {
    assert |multiset(Ordered(table, id))| == |multiset(Dated(SiteRows(table, id)))|;
  }

  /**
   * A kept site's activity key is the date of the first row the statements
   * select. That is the date of its newest row when both read one cutoff, or
   * when the recent cutoff is no later than the window cutoff.
   */
  lemma ActiveKey(table: Table, site: Site, now: Timestamp, recentCutoff: Timestamp, backfillCutoff: Timestamp)
    requires Kept(table, site.id, now, recentCutoff, backfillCutoff)
    ensures Evaluate(table, site, now, recentCutoff, backfillCutoff).Active?
    ensures LeadDay(table, site.id, recentCutoff, backfillCutoff)
      == Some(Evaluate(table, site, now, recentCutoff, backfillCutoff).entry.latestArticleTime)
    ensures recentCutoff == backfillCutoff || recentCutoff <= WindowCutoff(now) ==>
      NewestDay(table, site.id) == Some(Evaluate(table, site, now, recentCutoff, backfillCutoff).entry.latestArticleTime)
  {
    KeptEntry(table, site, now, recentCutoff, backfillCutoff);
    var o := Ordered(table, site.id);
    var selected := Since(o, recentCutoff) + Before(o, backfillCutoff);
    SelectMerged(o, recentCutoff, backfillCutoff);
    assert |o| > 0 && Newest(table, site.id) == Some(o[0].createdAt);
    if recentCutoff == backfillCutoff {
      SplitSorted(o, recentCutoff);
    } else if recentCutoff <= WindowCutoff(now) {
      assert o == [o[0]] + o[1..];
      assert Since(o, recentCutoff)[0] == o[0];
    }
  }

  // ---------------------------------------------------------------------------
  // The directory pass

  /** Every collected entry is the outcome of a directory site. */
  lemma {:induction false} CollectMembers(table: Table, sites: seq<Site>, now: Timestamp, recentCutoff: Timestamp, backfillCutoff: Timestamp)
    ensures forall e | e in Collect(table, sites, now, recentCutoff, backfillCutoff) ::
      e.site in sites && Evaluate(table, e.site, now, recentCutoff, backfillCutoff) == Active(e)
  {
    if |sites| > 0 {
      var rest := Collect(table, sites[1..], now, recentCutoff, backfillCutoff);
      CollectMembers(table, sites[1..], now, recentCutoff, backfillCutoff);
      assert forall x | x in sites[1..] :: x in sites;
      var o := Evaluate(table, sites[0], now, recentCutoff, backfillCutoff);
      if o.Active? {
        assert Collect(table, sites, now, recentCutoff, backfillCutoff) == [o.entry] + rest;
      } else {
        assert Collect(table, sites, now, recentCutoff, backfillCutoff) == rest;
      }
    }
  }

  /** One step of the directory pass: the first site's entry, if kept, then the rest. */
  lemma CollectStep(table: Table, sites: seq<Site>, now: Timestamp, recentCutoff: Timestamp, backfillCutoff: Timestamp)
    requires |sites| > 0
    ensures var o := Evaluate(table, sites[0], now, recentCutoff, backfillCutoff);
      Collect(table, sites, now, recentCutoff, backfillCutoff)
        == (if o.Active? then [o.entry] else []) + Collect(table, sites[1..], now, recentCutoff, backfillCutoff)
  {
  }

  /** The collected sites are the kept directory sites, in directory order. */
  lemma {:induction false} CollectSites(table: Table, sites: seq<Site>, now: Timestamp, recentCutoff: Timestamp, backfillCutoff: Timestamp)
    ensures Map(EntrySite, Collect(table, sites, now, recentCutoff, backfillCutoff))
      == ActiveSites(table, sites, now, recentCutoff, backfillCutoff)
  {
    if |sites| > 0 {
      var o := Evaluate(table, sites[0], now, recentCutoff, backfillCutoff);
      var head := if o.Active? then [o.entry] else [];
      var rest := Collect(table, sites[1..], now, recentCutoff, backfillCutoff);
      CollectStep(table, sites, now, recentCutoff, backfillCutoff);
      CollectSites(table, sites[1..], now, recentCutoff, backfillCutoff);
      ExclusionReasons(table, sites[0], now, recentCutoff, backfillCutoff);
      MapAppend(EntrySite, head, rest);
      assert Map(EntrySite, head) == if o.Active? then [sites[0]] else [];
    }
  }

  /** Every collected entry shows at least one article, and its activity key is its first article's date. */
  lemma CollectWellKeyed(table: Table, sites: seq<Site>, now: Timestamp, recentCutoff: Timestamp, backfillCutoff: Timestamp)
    ensures forall e | e in Collect(table, sites, now, recentCutoff, backfillCutoff) ::
      |e.articles| > 0 && e.latestArticleTime == e.articles[0].createdAt
  {
    CollectMembers(table, sites, now, recentCutoff, backfillCutoff);
  }

  /** Sorting keeps the entries, so it keeps their being well keyed. */
  lemma SortedWellKeyed(c: seq<Entry>)
    requires forall e | e in c :: |e.articles| > 0 && e.latestArticleTime == e.articles[0].createdAt
    ensures forall e | e in SortDesc(c, ActivityKey) :: |e.articles| > 0 && e.latestArticleTime == e.articles[0].createdAt
  {
    var s := SortDesc(c, ActivityKey);
    forall e | e in s ensures e in c {
      assert e in multiset(s);
    }
  }

  /** A site yields an entry with key `d` exactly when it is kept and its first shown article is on day `d`. */
  lemma KeyOnDay(table: Table, site: Site, now: Timestamp, recentCutoff: Timestamp, backfillCutoff: Timestamp, d: int)
    ensures var o := Evaluate(table, site, now, recentCutoff, backfillCutoff);
      (o.Active? && o.entry.latestArticleTime == d)
        <==> (Kept(table, site.id, now, recentCutoff, backfillCutoff) && LeadDay(table, site.id, recentCutoff, backfillCutoff) == Some(d))
  {
    ExclusionReasons(table, site, now, recentCutoff, backfillCutoff);
    if Kept(table, site.id, now, recentCutoff, backfillCutoff) {
      ActiveKey(table, site, now, recentCutoff, backfillCutoff);
    }
  }

  /** The collected entries with activity key `d` are the kept sites whose first shown article is on day `d`, in directory order. */
  lemma {:induction false} CollectOnDay(table: Table, sites: seq<Site>, now: Timestamp, recentCutoff: Timestamp, backfillCutoff: Timestamp, d: int)
    ensures Map(EntrySite, WithKey(Collect(table, sites, now, recentCutoff, backfillCutoff), ActivityKey, d))
      == ActiveSitesOnDay(table, sites, now, recentCutoff, backfillCutoff, d)
  {
    if |sites| > 0 {
      var o := Evaluate(table, sites[0], now, recentCutoff, backfillCutoff);
      var head := if o.Active? then [o.entry] else [];
      var rest := Collect(table, sites[1..], now, recentCutoff, backfillCutoff);
      CollectStep(table, sites, now, recentCutoff, backfillCutoff);
      CollectOnDay(table, sites[1..], now, recentCutoff, backfillCutoff, d);
      KeyOnDay(table, sites[0], now, recentCutoff, backfillCutoff, d);
      WithKeyAppend(head, rest, ActivityKey, d);
      MapAppend(EntrySite, WithKey(head, ActivityKey, d), WithKey(rest, ActivityKey, d));
      assert Map(EntrySite, WithKey(head, ActivityKey, d))
        == if o.Active? && o.entry.latestArticleTime == d then [sites[0]] else [];
    }
  }

  /** Output row `i` is the stripped `i`th sorted entry. */
  lemma OutSitesOfStripped(es: seq<Entry>)
    ensures OutSites(Map(Strip, es)) == Map(EntrySite, es)
  {
  }

  /**
   * Removing the key loses nothing the order depends on: the entries with key
   * `d` become exactly the returned sites whose first article is dated `d`,
   * in the same order.
   */
  lemma {:induction false} OnDayOfStripped(es: seq<Entry>, d: int)
    requires forall e | e in es :: |e.articles| > 0 && e.latestArticleTime == e.articles[0].createdAt
    ensures OnDay(Map(Strip, es), d) == Map(Strip, WithKey(es, ActivityKey, d))
  {
    if |es| > 0 {
      var out := Map(Strip, es);
      assert out[1..] == Map(Strip, es[1..]);
      assert es[0] in es;
      OnDayOfStripped(es[1..], d);
      if ActivityKey(es[0]) == d {
        MapCons(Strip, es[0], WithKey(es[1..], ActivityKey, d));
      }
    }
  }

  // ---------------------------------------------------------------------------
  // The whole result

  /**
   * Each returned site is a directory site whose own outcome is `Active`, shown
   * with that outcome's articles (one to three) and without the sort key.
   */
  lemma GetSitesEntries(table: Table, sites: seq<Site>, now: Timestamp, recentCutoff: Timestamp, backfillCutoff: Timestamp)
    ensures var out := GetSites(table, sites, now, recentCutoff, backfillCutoff);
      forall i | 0 <= i < |out| ::
        && out[i].site in sites
        && 1 <= |out[i].articles| <= Quota
        && Evaluate(table, out[i].site, now, recentCutoff, backfillCutoff)
             == Active(Entry(out[i].site, out[i].articles, out[i].articles[0].createdAt))
  {
    var c := Collect(table, sites, now, recentCutoff, backfillCutoff);
    var s := SortDesc(c, ActivityKey);
    var out := GetSites(table, sites, now, recentCutoff, backfillCutoff);
    CollectMembers(table, sites, now, recentCutoff, backfillCutoff);
    forall i | 0 <= i < |out|
      ensures && out[i].site in sites
              && 1 <= |out[i].articles| <= Quota
              && Evaluate(table, out[i].site, now, recentCutoff, backfillCutoff)
                   == Active(Entry(out[i].site, out[i].articles, out[i].articles[0].createdAt))
    {
      assert s[i] in multiset(s);
      assert out[i] == Strip(s[i]);
      StrippedEntry(table, s[i], now, recentCutoff, backfillCutoff);
    }
  }

  /** An entry that is its site's outcome is rebuilt from what remains after the key is removed. */
  lemma StrippedEntry(table: Table, e: Entry, now: Timestamp, recentCutoff: Timestamp, backfillCutoff: Timestamp)
    requires Evaluate(table, e.site, now, recentCutoff, backfillCutoff) == Active(e)
    ensures 1 <= |e.articles| <= Quota
    ensures e == Entry(Strip(e).site, Strip(e).articles, Strip(e).articles[0].createdAt)
  {
  }

  /**
   * The returned sites are exactly the kept directory sites, each as many
   * times as the directory lists it: a subsequence of the directory,
   * rearranged. When both statements read one cutoff, or the recent cutoff is
   * no later than the window cutoff, the kept sites are exactly those with a
   * timestamp inside the window.
   */
  lemma GetSitesMembership(table: Table, sites: seq<Site>, now: Timestamp, recentCutoff: Timestamp, backfillCutoff: Timestamp)
    ensures var out := OutSites(GetSites(table, sites, now, recentCutoff, backfillCutoff));
      forall s :: s in out <==> s in sites && Kept(table, s.id, now, recentCutoff, backfillCutoff)
    ensures recentCutoff == backfillCutoff || recentCutoff <= WindowCutoff(now) ==>
      var out := OutSites(GetSites(table, sites, now, recentCutoff, backfillCutoff));
      forall s :: s in out <==> s in sites && HasRowSince(table, s.id, WindowCutoff(now))
    ensures multiset(OutSites(GetSites(table, sites, now, recentCutoff, backfillCutoff)))
      == multiset(ActiveSites(table, sites, now, recentCutoff, backfillCutoff))
    ensures multiset(OutSites(GetSites(table, sites, now, recentCutoff, backfillCutoff))) <= multiset(sites)
  {
    var c := Collect(table, sites, now, recentCutoff, backfillCutoff);
    var s := SortDesc(c, ActivityKey);
    CollectSites(table, sites, now, recentCutoff, backfillCutoff);
    OutSitesOfStripped(s);
    MapPreservesPermutation(EntrySite, s, c);
    var out := OutSites(GetSites(table, sites, now, recentCutoff, backfillCutoff));
    forall x ensures x in out <==> x in ActiveSites(table, sites, now, recentCutoff, backfillCutoff) {
      assert x in out <==> x in multiset(out);
    }
    forall x: Site ensures recentCutoff == backfillCutoff || recentCutoff <= WindowCutoff(now) ==>
      (Kept(table, x.id, now, recentCutoff, backfillCutoff) <==> HasRowSince(table, x.id, WindowCutoff(now)))
    {
      KeptIffWindow(table, x.id, now, recentCutoff, backfillCutoff);
    }
  }

  /** A site with no timestamp inside the window (no rows, only NULLs, or only older ones) is never returned. */
  lemma DormantNeverReturned(table: Table, sites: seq<Site>, now: Timestamp, recentCutoff: Timestamp, backfillCutoff: Timestamp, site: Site)
    requires forall r | r in table && r.friendId == site.id && r.createdAt.Some? :: r.createdAt.value < WindowCutoff(now)
    ensures site !in OutSites(GetSites(table, sites, now, recentCutoff, backfillCutoff))
  {
    GetSitesMembership(table, sites, now, recentCutoff, backfillCutoff);
  }

  /** A directory without repeated sites yields a result without repeated sites. */
  lemma GetSitesNoDuplicates(table: Table, sites: seq<Site>, now: Timestamp, recentCutoff: Timestamp, backfillCutoff: Timestamp)
    requires Distinct(sites)
    ensures Distinct(OutSites(GetSites(table, sites, now, recentCutoff, backfillCutoff)))
  {
    GetSitesMembership(table, sites, now, recentCutoff, backfillCutoff);
    SubMultisetKeepsDistinct(OutSites(GetSites(table, sites, now, recentCutoff, backfillCutoff)), sites);
  }

  /** Sites come out most recently active first: first-article dates never increase. */
  lemma GetSitesOrdered(table: Table, sites: seq<Site>, now: Timestamp, recentCutoff: Timestamp, backfillCutoff: Timestamp)
    ensures var out := GetSites(table, sites, now, recentCutoff, backfillCutoff);
      forall i | 0 <= i < |out| :: |out[i].articles| > 0
    ensures var out := GetSites(table, sites, now, recentCutoff, backfillCutoff);
      forall i, j | 0 <= i < j < |out| :: out[i].articles[0].createdAt >= out[j].articles[0].createdAt
  {
    var c := Collect(table, sites, now, recentCutoff, backfillCutoff);
    var s := SortDesc(c, ActivityKey);
    var out := GetSites(table, sites, now, recentCutoff, backfillCutoff);
    CollectMembers(table, sites, now, recentCutoff, backfillCutoff);
    forall i | 0 <= i < |s|
      ensures |out[i].articles| > 0 && ActivityKey(s[i]) == out[i].articles[0].createdAt
    {
      assert s[i] in multiset(s);
      assert out[i] == Strip(s[i]);
    }
    forall i, j | 0 <= i < j < |out| ensures out[i].articles[0].createdAt >= out[j].articles[0].createdAt {
      assert ActivityKey(s[i]) >= ActivityKey(s[j]);
    }
  }

  /** Sites whose first articles share a date keep their directory order (the sort is stable). */
  lemma GetSitesTiesInDirectoryOrder(table: Table, sites: seq<Site>, now: Timestamp, recentCutoff: Timestamp, backfillCutoff: Timestamp, d: int)
    ensures OutSites(OnDay(GetSites(table, sites, now, recentCutoff, backfillCutoff), d))
      == ActiveSitesOnDay(table, sites, now, recentCutoff, backfillCutoff, d)
  {
    var c := Collect(table, sites, now, recentCutoff, backfillCutoff);
    var s := SortDesc(c, ActivityKey);
    CollectWellKeyed(table, sites, now, recentCutoff, backfillCutoff);
    SortedWellKeyed(c);
    var tied := WithKey(s, ActivityKey, d);
    OnDayOfStripped(s, d);
    assert OnDay(GetSites(table, sites, now, recentCutoff, backfillCutoff), d) == Map(Strip, tied);
    OutSitesOfStripped(tied);
    SortDescStable(c, ActivityKey, d);
    assert tied == WithKey(c, ActivityKey, d);
    CollectOnDay(table, sites, now, recentCutoff, backfillCutoff, d);
  }

  /**
   * When both article statements read one cutoff, that cutoff only decides
   * how the three articles are split between them; the result is the same
   * for every value of it.
   */
  lemma {:induction false} QueryCutoffIrrelevant(table: Table, sites: seq<Site>, now: Timestamp, cutoff1: Timestamp, cutoff2: Timestamp)
    ensures GetSites(table, sites, now, cutoff1, cutoff1) == GetSites(table, sites, now, cutoff2, cutoff2)
  {
    CollectIgnoresCutoff(table, sites, now, cutoff1, cutoff2);
  }

  lemma {:induction false} CollectIgnoresCutoff(table: Table, sites: seq<Site>, now: Timestamp, cutoff1: Timestamp, cutoff2: Timestamp)
    ensures Collect(table, sites, now, cutoff1, cutoff1) == Collect(table, sites, now, cutoff2, cutoff2)
  {
    if |sites| > 0 {
      var o := Ordered(table, sites[0].id);
      SelectIsNewest(o, cutoff1);
      SelectIsNewest(o, cutoff2);
      CollectIgnoresCutoff(table, sites[1..], now, cutoff1, cutoff2);
    }
  }
}

=== FILE: seqs.dfy ===
/** Sequence helpers shared by the store queries and the aggregator. */
module Seqs {

  function Min(a: int, b: int): (m: int)
    ensures m <= a && m <= b
    ensures m == a || m == b
  {
    if a <= b then a else b
  }

  /** SQL `LIMIT n`: the first `n` elements, or all of them when there are fewer. */
  function Limit<T>(xs: seq<T>, n: nat): (r: seq<T>)
    ensures |r| == Min(|xs|, n)
    ensures r == xs[..|r|]
  {
    if |xs| <= n then xs else xs[..n]
  }

  lemma LimitAppendShort<T>(a: seq<T>, b: seq<T>, n: nat)
    requires |a| < n
    ensures Limit(a + b, n) == a + Limit(b, n - |a|)
  {
  }

  lemma LimitAppendLong<T>(a: seq<T>, b: seq<T>, n: nat)
    requires |a| >= n
    ensures Limit(a + b, n) == Limit(a, n)
  {
  }

  /** Putting one element in front of two pieces that make up a sequence puts it in front of that sequence. */
  lemma ConsSplit<T>(head: T, front: seq<T>, back: seq<T>, whole: seq<T>)
    requires front + back == whole
    ensures [head] + front + back == [head] + whole
  {
  }

  /** `f` applied to every element, order kept. */
  function Map<A, B>(f: A -> B, xs: seq<A>): (r: seq<B>)
    ensures |r| == |xs|
    ensures forall i :: 0 <= i < |xs| ==> r[i] == f(xs[i])
  {
    if |xs| == 0 then [] else [f(xs[0])] + Map(f, xs[1..])
  }

  lemma {:induction false} MapAppend<A, B>(f: A -> B, u: seq<A>, v: seq<A>)
    ensures Map(f, u + v) == Map(f, u) + Map(f, v)
  {
  }

  lemma MapCons<A, B>(f: A -> B, x: A, xs: seq<A>)
    ensures Map(f, [x] + xs) == [f(x)] + Map(f, xs)
  {
    assert ([x] + xs)[1..] == xs;
  }

  lemma {:induction false} RemoveAt<T>(xs: seq<T>, k: nat)
    requires k < |xs|
    ensures multiset(xs[..k] + xs[k+1..]) == multiset(xs) - multiset{xs[k]}
  {
    assert xs == xs[..k] + [xs[k]] + xs[k+1..];
  }

  /** The image of a sequence, counted, is the image of the sequence without its `k`th element plus that element's image. */
  lemma {:induction false} MapRemoveAt<A, B>(f: A -> B, xs: seq<A>, k: nat)
    requires k < |xs|
    ensures multiset(Map(f, xs)) == multiset(Map(f, xs[..k] + xs[k+1..])) + multiset{f(xs[k])}
  {
    var image := Map(f, xs);
    assert image[..k] == Map(f, xs[..k]);
    assert image[k+1..] == Map(f, xs[k+1..]);
    assert image == image[..k] + [image[k]] + image[k+1..];
    MapAppend(f, xs[..k], xs[k+1..]);
  }

  lemma FindIndex<T>(b: seq<T>, x: T) returns (k: nat)
    requires x in multiset(b)
    ensures k < |b| && b[k] == x
  {
    assert x in b;
    k :| 0 <= k < |b| && b[k] == x;
  }

  /** Removing one occurrence of the same element from two permutations of each other leaves permutations. */
  lemma RemoveMatching<T>(a: seq<T>, b: seq<T>, k: nat)
    requires multiset(a) == multiset(b)
    requires 0 < |a| && k < |b| && b[k] == a[0]
    ensures multiset(a[1..]) == multiset(b[..k] + b[k+1..])
  {
    assert a == [a[0]] + a[1..];
    assert multiset(a[1..]) == multiset(a) - multiset{a[0]};
    RemoveAt(b, k);
  }

  /** Rearranging the input rearranges the image the same way. */
  lemma {:induction false} MapPreservesPermutation<A, B>(f: A -> B, a: seq<A>, b: seq<A>)
    requires multiset(a) == multiset(b)
    ensures multiset(Map(f, a)) == multiset(Map(f, b))
    decreases |a|
  {
    if |a| == 0 {
      assert |multiset(b)| == 0;
    } else {
      var k := FindIndex(b, a[0]);
      var restA, restB := a[1..], b[..k] + b[k+1..];
      RemoveMatching(a, b, k);
      MapPreservesPermutation(f, restA, restB);
      MapRemoveAt(f, a, 0);
      assert a[..0] + a[1..] == restA;
      MapRemoveAt(f, b, k);
    }
  }

  /** No element occurs twice. */
  predicate Distinct<T(==)>(xs: seq<T>) {
    forall i, j | 0 <= i < j < |xs| :: xs[i] != xs[j]
  }

  lemma {:induction false} DistinctCountsAtMostOne<T>(xs: seq<T>)
    requires Distinct(xs)
    ensures forall x :: multiset(xs)[x] <= 1
  {
    if |xs| > 0 {
      var tail := xs[1..];
      assert Distinct(tail) by {
        forall i, j | 0 <= i < j < |tail| ensures tail[i] != tail[j] {
          assert tail[i] == xs[i + 1] && tail[j] == xs[j + 1];
        }
      }
      DistinctCountsAtMostOne(tail);
      assert xs == [xs[0]] + tail;
      assert xs[0] !in tail by {
        forall j | 0 <= j < |tail| ensures tail[j] != xs[0] {
          assert tail[j] == xs[j + 1];
        }
      }
    }
  }

  lemma CountsAtMostOneDistinct<T>(xs: seq<T>)
    requires forall x :: multiset(xs)[x] <= 1
    ensures Distinct(xs)
  {
    forall i, j | 0 <= i < j < |xs| ensures xs[i] != xs[j] {
      var front := xs[..j];
      assert front[i] == xs[i];
      assert multiset(front)[xs[i]] >= 1;
      assert xs == front + [xs[j]] + xs[j+1..];
      assert multiset(xs)[xs[j]] >= multiset(front)[xs[j]] + 1;
    }
  }

  /** A sequence drawn, with multiplicity, from a duplicate-free one is itself duplicate-free. */
  lemma SubMultisetKeepsDistinct<T>(a: seq<T>, b: seq<T>)
    requires multiset(a) <= multiset(b)
    requires Distinct(b)
    ensures Distinct(a)
  {
    DistinctCountsAtMostOne(b);
    forall x ensures multiset(a)[x] <= 1 {
      assert multiset(a)[x] <= multiset(b)[x];
    }
    CountsAtMostOneDistinct(a);
  }
}

=== FILE: stable_sort.dfy ===
/**
 * Stable descending sort on an integer key: the order Python's
 * `list.sort(key=k, reverse=True)` produces, where elements with equal keys
 * keep their original relative order. It also serves as the model of SQL's
 * `ORDER BY ... DESC` over a site's article rows.
 */
module StableSort {
  import opened Seqs

  /** Keys never increase from left to right. */
  ghost predicate SortedDesc<T>(xs: seq<T>, key: T -> int) {
    forall i, j | 0 <= i < j < |xs| :: key(xs[i]) >= key(xs[j])
  }

  /**
   * Inserts `x` into a descending sequence in front of the first element whose
   * key is not larger, so `x` precedes every element with an equal key.
   */
  function Insert<T>(x: T, s: seq<T>, key: T -> int): (r: seq<T>)
    requires SortedDesc(s, key)
    ensures multiset(r) == multiset(s) + multiset{x}
    ensures SortedDesc(r, key)
  {
    if |s| == 0 || key(s[0]) <= key(x) then
      ConsSorted(x, s, key);
      [x] + s
    else
      var rest := Insert(x, s[1..], key);
      assert s == [s[0]] + s[1..];
      assert forall y | y in rest :: key(s[0]) >= key(y) by {
        forall y | y in rest ensures key(s[0]) >= key(y) {
          assert y in multiset(rest);
          assert y == x || y in s[1..];
        }
      }
      ConsSorted(s[0], rest, key);
      [s[0]] + rest
  }

  /** An element at least as large as the first of a descending sequence goes in front. */
  lemma InsertFront<T>(x: T, s: seq<T>, key: T -> int)
    requires SortedDesc(s, key) && |s| > 0 && key(s[0]) <= key(x)
    ensures Insert(x, s, key) == [x] + s
  {
  }

  /**
   * The first `n` of a descending sequence are its `n` largest: the prefix is
   * short only when nothing is left out, and no element left out outranks
   * one kept.
   */
  lemma LimitKeepsLargest<T>(s: seq<T>, n: nat, key: T -> int)
    requires SortedDesc(s, key)
    ensures |Limit(s, n)| < n ==> Limit(s, n) == s
    ensures forall x, y | x in Limit(s, n) && y in s && y !in Limit(s, n) :: key(x) >= key(y)
  {
    var r := Limit(s, n);
    forall x, y | x in r && y in s && y !in r ensures key(x) >= key(y) {
      var i :| 0 <= i < |r| && r[i] == x;
      var j :| 0 <= j < |s| && s[j] == y;
      assert j >= |r| by {
        assert forall k | 0 <= k < |r| :: r[k] == s[k];
      }
      assert s[i] == x;
    }
  }

  /** Putting an element no smaller than any other in front keeps a sequence descending. */
  lemma ConsSorted<T>(h: T, s: seq<T>, key: T -> int)
    requires SortedDesc(s, key)
    requires forall y | y in s :: key(h) >= key(y)
    ensures SortedDesc([h] + s, key)
  {
    var r := [h] + s;
    forall i, j | 0 <= i < j < |r| ensures key(r[i]) >= key(r[j]) {
      assert r[j] == s[j - 1];
      if i > 0 {
        assert r[i] == s[i - 1];
      }
    }
  }

  lemma TailSorted<T>(xs: seq<T>, key: T -> int)
    requires |xs| > 0
    requires SortedDesc(xs, key)
    ensures SortedDesc(xs[1..], key)
  {
    var tail := xs[1..];
    forall i, j | 0 <= i < j < |tail| ensures key(tail[i]) >= key(tail[j]) {
      assert tail[i] == xs[i + 1] && tail[j] == xs[j + 1];
    }
  }

  /** Two descending runs, the first nowhere below the second, make one descending run. */
  lemma ConcatSorted<T>(a: seq<T>, b: seq<T>, key: T -> int)
    requires SortedDesc(a, key) && SortedDesc(b, key)
    requires forall x, y | x in a && y in b :: key(x) >= key(y)
    ensures SortedDesc(a + b, key)
  {
    var r := a + b;
    forall i, j | 0 <= i < j < |r| ensures key(r[i]) >= key(r[j]) {
      if j < |a| {
        assert r[i] == a[i] && r[j] == a[j];
      } else if i >= |a| {
        assert r[i] == b[i - |a|] && r[j] == b[j - |a|];
      } else {
        assert r[i] == a[i] && r[j] == b[j - |a|];
      }
    }
  }

  /** Insertion sort, taking elements from the back so that earlier elements land before later equal ones. */
  function SortDesc<T>(xs: seq<T>, key: T -> int): (r: seq<T>)
    ensures SortedDesc(r, key)
    ensures multiset(r) == multiset(xs)
  {
    if |xs| == 0 then
      []
    else
      assert xs == [xs[0]] + xs[1..];
      Insert(xs[0], SortDesc(xs[1..], key), key)
  }

  /** The elements whose key is `k`, in their original order. */
  function WithKey<T>(xs: seq<T>, key: T -> int, k: int): (r: seq<T>)
    ensures forall y | y in r :: y in xs && key(y) == k
    ensures forall y | y in xs && key(y) == k :: y in r
  {
    if |xs| == 0 then
      []
    else
      assert forall y | y in xs :: y == xs[0] || y in xs[1..];
      (if key(xs[0]) == k then [xs[0]] else []) + WithKey(xs[1..], key, k)
  }

  lemma {:induction false} WithKeyAppend<T>(a: seq<T>, b: seq<T>, key: T -> int, k: int)
    ensures WithKey(a + b, key, k) == WithKey(a, key, k) + WithKey(b, key, k)
  {
    if |a| == 0 {
      assert a + b == b;
    } else {
      assert (a + b)[1..] == a[1..] + b;
      WithKeyAppend(a[1..], b, key, k);
    }
  }

  lemma {:induction false} InsertStable<T>(x: T, s: seq<T>, key: T -> int, k: int)
    requires SortedDesc(s, key)
    ensures WithKey(Insert(x, s, key), key, k) == (if key(x) == k then [x] else []) + WithKey(s, key, k)
  {
    if |s| == 0 || key(s[0]) <= key(x) {
      assert ([x] + s)[1..] == s;
    } else {
      var rest := Insert(x, s[1..], key);
      InsertStable(x, s[1..], key, k);
      assert Insert(x, s, key) == [s[0]] + rest;
      WithKeyCons(s[0], rest, key, k);
      WithKeyCons(s[0], s[1..], key, k);
      assert [s[0]] + s[1..] == s;
      // s[0] ranks strictly above x, so at most one of the two is of key k
      SwapPastEmpty(if key(s[0]) == k then [s[0]] else [], if key(x) == k then [x] else [],
        WithKey(rest, key, k), WithKey(s[1..], key, k));
    }
  }

  /** With one of `front` and `here` empty, their order in front of a sequence does not matter. */
  lemma SwapPastEmpty<T>(front: seq<T>, here: seq<T>, a: seq<T>, b: seq<T>)
    requires a == here + b
    requires front == [] || here == []
    ensures front + a == here + (front + b)
  {
    if front == [] {
      assert front + a == a;
      assert front + b == b;
    } else {
      assert here + (front + b) == front + b;
    }
  }

  lemma WithKeyCons<T>(head: T, tail: seq<T>, key: T -> int, k: int)
    ensures WithKey([head] + tail, key, k) == (if key(head) == k then [head] else []) + WithKey(tail, key, k)
  {
    assert ([head] + tail)[1..] == tail;
  }

  /** Stability: among elements with equal keys, the sorted order is the original order. */
  lemma {:induction false} SortDescStable<T>(xs: seq<T>, key: T -> int, k: int)
    ensures WithKey(SortDesc(xs, key), key, k) == WithKey(xs, key, k)
  {
    if |xs| > 0 {
      SortDescStable(xs[1..], key, k);
      InsertStable(xs[0], SortDesc(xs[1..], key), key, k);
    }
  }
}

=== FILE: store.dfy ===
/**
 * In-memory stand-in for the two MySQL tables `get_sites` reads:
 * `friend_links` (the site directory) and `friend_rss_articles` (article
 * rows keyed by `friend_id`), and for the three article queries it runs.
 */
module Store {
  import opened Wrappers
  import opened Seqs
  import opened StableSort

  /** A naive local date-time, as seconds on a fixed epoch. */
  type Timestamp = int

  /** The selected columns of an active `friend_links` row. */
  datatype Site = Site(
    id: int,
    name: string,
    logo: string,
    description: string,
    url: string,
    lastFetchedAt: Option<Timestamp>)

  /** A `friend_rss_articles` row; `createdAt` is a nullable column. */
  datatype Row = Row(friendId: int, title: string, link: string, createdAt: Option<Timestamp>)

  /** A row whose `created_at` is not NULL: the only rows a timestamp comparison can select. */
  type DatedRow = r: Row | r.createdAt.Some? witness Row(0, "", "", Some(0))

  type Table = seq<Row>

  function Stamp(r: DatedRow): Timestamp {
    r.createdAt.value
  }

  /** `WHERE friend_id = id`, in table order. */
  function SiteRows(table: Table, id: int): (rows: seq<Row>)
    ensures forall r | r in rows :: r in table && r.friendId == id
    ensures forall r | r in table && r.friendId == id :: r in rows
  {
    if |table| == 0 then
      []
    else
      assert forall r | r in table :: r == table[0] || r in table[1..];
      (if table[0].friendId == id then [table[0]] else []) + SiteRows(table[1..], id)
  }

  /** The rows with a non-NULL `created_at`, in their order. */
  function Dated(rows: seq<Row>): (d: seq<DatedRow>)
    ensures forall r | r in d :: r in rows
    ensures forall r | r in rows && r.createdAt.Some? :: r in d
  {
    if |rows| == 0 then
      []
    else
      assert forall r | r in rows :: r == rows[0] || r in rows[1..];
      (if rows[0].createdAt.Some? then [rows[0]] else []) + Dated(rows[1..])
  }

  /** `WHERE friend_id = id` returns each of the site's rows as often as the table holds it, and no other row. */
  lemma {:induction false} SiteRowsCount(table: Table, id: int)
    ensures forall r :: multiset(SiteRows(table, id))[r] == (if r.friendId == id then multiset(table)[r] else 0)
  {
    if |table| > 0 {
      SiteRowsCount(table[1..], id);
      assert table == [table[0]] + table[1..];
    }
  }

  /** The NULL filter keeps each dated row as often as it occurs. */
  lemma {:induction false} DatedCount(rows: seq<Row>)
    ensures forall r: DatedRow :: multiset(Dated(rows))[r] == multiset(rows)[r]
  {
    if |rows| > 0 {
      DatedCount(rows[1..]);
      assert rows == [rows[0]] + rows[1..];
    }
  }

  /** The ordered rows hold each dated row of the site exactly as often as the table does. */
  lemma OrderedCount(table: Table, id: int)
    ensures forall r: DatedRow :: multiset(Ordered(table, id))[r] == (if r.friendId == id then multiset(table)[r] else 0)
  {
    SiteRowsCount(table, id);
    DatedCount(SiteRows(table, id));
  }

  /**
   * The site's rows under `ORDER BY created_at DESC`, restricted to non-NULL
   * timestamps. Rows with equal timestamps are kept in table order; SQL
   * leaves that order unspecified, so this is one permitted answer.
   */
  function Ordered(table: Table, id: int): (o: seq<DatedRow>)
    ensures SortedDesc(o, Stamp)
    ensures forall r | r in o :: r in table && r.friendId == id
    ensures forall r | r in table && r.friendId == id && r.createdAt.Some? :: r in o
    ensures multiset(o) == multiset(Dated(SiteRows(table, id)))
  {
    var d := Dated(SiteRows(table, id));
    var o := SortDesc(d, Stamp);
    assert forall r | r in o :: r in multiset(d);
    assert forall r | r in d :: r in multiset(o);
    o
  }

  /**
   * `SELECT created_at ... ORDER BY created_at DESC LIMIT 1`: `None` when the
   * query returns no row, `Some(None)` when the returned row's `created_at` is
   * NULL. MySQL sorts NULL last under DESC, so that row is NULL only when every
   * row of the site is.
   */
  function Newest(table: Table, id: int): (r: Option<Option<Timestamp>>)
    ensures r.Some? <==> exists x | x in table :: x.friendId == id
  {
    var o := Ordered(table, id);
    var rows := SiteRows(table, id);
    if |o| > 0 then
      assert o[0] in o;
      Some(o[0].createdAt)
    else if |rows| > 0 then
      assert rows[0] in rows;
      Some(None)
    else
      None
  }

  /** `t` is the largest non-NULL `created_at` among the site's rows. */
  ghost predicate IsNewestStamp(table: Table, id: int, t: Timestamp) {
    && (exists r | r in table :: r.friendId == id && r.createdAt == Some(t))
    && (forall r | r in table && r.friendId == id && r.createdAt.Some? :: r.createdAt.value <= t)
  }

  /** What the newest-article query returns, in terms of the table's contents. */
  lemma NewestCases(table: Table, id: int)
    ensures Newest(table, id) == None <==> forall r | r in table :: r.friendId != id
    ensures Newest(table, id) == Some(None) <==>
      && (exists r | r in table :: r.friendId == id)
      && (forall r | r in table && r.friendId == id :: r.createdAt.None?)
    ensures Newest(table, id).Some? && Newest(table, id).value.Some? ==> IsNewestStamp(table, id, Newest(table, id).value.value)
  {
    var o := Ordered(table, id);
    var rows := SiteRows(table, id);
    if |o| > 0 {
      assert o[0] in o;
      forall r | r in table && r.friendId == id && r.createdAt.Some?
        ensures r.createdAt.value <= Stamp(o[0])
      {
        assert r in o;
        var j :| 0 <= j < |o| && o[j] == r;
      }
    } else {
      forall r | r in table && r.friendId == id ensures r.createdAt.None? {
      }
      if |rows| > 0 {
        assert rows[0] in rows;
      }
    }
  }

  /** `created_at >= cutoff`, order kept. */
  function Since(rows: seq<DatedRow>, cutoff: Timestamp): (r: seq<DatedRow>)
    ensures forall x | x in r :: x in rows && Stamp(x) >= cutoff
  {
    if |rows| == 0 then
      []
    else
      (if Stamp(rows[0]) >= cutoff then [rows[0]] else []) + Since(rows[1..], cutoff)
  }

  /** `created_at < cutoff`, order kept. */
  function Before(rows: seq<DatedRow>, cutoff: Timestamp): (r: seq<DatedRow>)
    ensures forall x | x in r :: x in rows && Stamp(x) < cutoff
  {
    if |rows| == 0 then
      []
    else
      (if Stamp(rows[0]) < cutoff then [rows[0]] else []) + Before(rows[1..], cutoff)
  }

  lemma {:induction false} SinceNone(rows: seq<DatedRow>, cutoff: Timestamp)
    requires forall x | x in rows :: Stamp(x) < cutoff
    ensures Since(rows, cutoff) == []
  {
    if |rows| > 0 {
      SinceNone(rows[1..], cutoff);
    }
  }

  /**
   * On rows ordered newest-first, the rows at or after a cutoff followed by
   * the rows before it give back the whole sequence: the two queries split it
   * into a prefix and the matching suffix, for any cutoff.
   */
  lemma {:induction false} SplitSorted(rows: seq<DatedRow>, cutoff: Timestamp)
    requires SortedDesc(rows, Stamp)
    ensures Since(rows, cutoff) + Before(rows, cutoff) == rows
  {
    if |rows| > 0 {
      var head, tail := rows[0], rows[1..];
      assert rows == [head] + tail;
      TailSorted(rows, Stamp);
      SplitSorted(tail, cutoff);
      if Stamp(head) < cutoff {
        HeadNewest(rows);
        SinceNone(tail, cutoff);
        SplitOlder(head, tail, cutoff);
      } else {
        SplitNewer(head, tail, cutoff);
      }
    }
  }

  /** One step of `SplitSorted` when the first row is older than the cutoff, so every row is. */
  lemma SplitOlder(head: DatedRow, tail: seq<DatedRow>, cutoff: Timestamp)
    requires Stamp(head) < cutoff
    requires Since(tail, cutoff) == [] && Before(tail, cutoff) == tail
    ensures Since([head] + tail, cutoff) + Before([head] + tail, cutoff) == [head] + tail
  {
    assert ([head] + tail)[1..] == tail;
  }

  /** One step of `SplitSorted` when the first row is at or after the cutoff. */
  lemma SplitNewer(head: DatedRow, tail: seq<DatedRow>, cutoff: Timestamp)
    requires Stamp(head) >= cutoff
    requires Since(tail, cutoff) + Before(tail, cutoff) == tail
    ensures Since([head] + tail, cutoff) + Before([head] + tail, cutoff) == [head] + tail
  {
    UnfoldNewer(head, tail, cutoff);
    ConsSplit(head, Since(tail, cutoff), Before(tail, cutoff), tail);
  }

  lemma UnfoldNewer(head: DatedRow, tail: seq<DatedRow>, cutoff: Timestamp)
    requires Stamp(head) >= cutoff
    ensures Since([head] + tail, cutoff) == [head] + Since(tail, cutoff)
    ensures Before([head] + tail, cutoff) == Before(tail, cutoff)
  {
    assert ([head] + tail)[1..] == tail;
  }

  /** Every row after the first of a newest-first sequence is no newer than the first. */
  lemma HeadNewest(rows: seq<DatedRow>)
    requires |rows| > 0
    requires SortedDesc(rows, Stamp)
    ensures forall y | y in rows[1..] :: Stamp(rows[0]) >= Stamp(y)
  {
    forall y | y in rows[1..] ensures Stamp(rows[0]) >= Stamp(y) {
      var j :| 0 <= j < |rows[1..]| && rows[1..][j] == y;
      assert rows[1..][j] == rows[j + 1];
    }
  }

  /** Filtering keeps the newest-first order. */
  lemma {:induction false} SinceSorted(rows: seq<DatedRow>, cutoff: Timestamp)
    requires SortedDesc(rows, Stamp)
    ensures SortedDesc(Since(rows, cutoff), Stamp)
  {
    if |rows| > 0 {
      var rest := Since(rows[1..], cutoff);
      TailSorted(rows, Stamp);
      SinceSorted(rows[1..], cutoff);
      if Stamp(rows[0]) >= cutoff {
        HeadNewest(rows);
        ConsSorted(rows[0], rest, Stamp);
      } else {
        assert Since(rows, cutoff) == rest;
      }
    }
  }

  lemma {:induction false} BeforeSorted(rows: seq<DatedRow>, cutoff: Timestamp)
    requires SortedDesc(rows, Stamp)
    ensures SortedDesc(Before(rows, cutoff), Stamp)
  {
    if |rows| > 0 {
      var rest := Before(rows[1..], cutoff);
      TailSorted(rows, Stamp);
      BeforeSorted(rows[1..], cutoff);
      if Stamp(rows[0]) < cutoff {
        HeadNewest(rows);
        ConsSorted(rows[0], rest, Stamp);
      } else {
        assert Before(rows, cutoff) == rest;
      }
    }
  }

  /** The `>=` filter misses no row at or after the cutoff. */
  lemma {:induction false} SinceComplete(rows: seq<DatedRow>, cutoff: Timestamp)
    ensures forall x | x in rows && Stamp(x) >= cutoff :: x in Since(rows, cutoff)
  {
    if |rows| > 0 {
      SinceComplete(rows[1..], cutoff);
      assert forall x | x in rows :: x == rows[0] || x in rows[1..];
    }
  }

  /** The `<` filter misses no row before the cutoff. */
  lemma {:induction false} BeforeComplete(rows: seq<DatedRow>, cutoff: Timestamp)
    ensures forall x | x in rows && Stamp(x) < cutoff :: x in Before(rows, cutoff)
  {
    if |rows| > 0 {
      BeforeComplete(rows[1..], cutoff);
      assert forall x | x in rows :: x == rows[0] || x in rows[1..];
    }
  }
}

=== FILE: wrappers.dfy ===
/** Optional values: a missing query row, a NULL column. */
module Wrappers {

  datatype Option<+T> = None | Some(value: T)
}
